=== FILE: README.md ===
# dockerswarm-metrics-exporter: a Dafny model of the metrics core

The exporter serves one JSON snapshot per request. The snapshot describes the host it runs on and the Docker engine/swarm it belongs to. This project models how that snapshot is computed:

- `GetFSType` maps a filesystem magic number to a name through a hexadecimal lookup table.
- `GetPathDiskInfo` turns `statfs` counters into total, free and used space using Go `uint64` arithmetic, and reports a corruption error when the free space exceeds the total.
- The Docker functions:
  - `GetDockerRootInfo` finds the engine's root directory.
  - `GetNodeList` lists the swarm's nodes, redacting TLS and engine details.
  - `getNodeference` resolves "self" to a node ID.
  - `GetNodeInspect` inspects a node.
  - `isANodeManager` probes whether this node is a manager.
- The host collectors wrap gopsutil calls:
  - `GetCPUInfo`, `GetCPUPercentageUtilization`, `GetCpuLoad`, `GetMemInfo`, `GetDiskIOCounterStat`, and `GetDiskInfo`'s partition listing turn a failure into an empty value plus one error log line.
  - `GetHostInfo`, `GetNetInfo` and `GetDiskInfo`'s per-partition usage drop their errors without logging.
- `GetCurrentInfo` composes all of the above except `GetNetInfo` into one snapshot. It never fails, and every error it does not drop is logged once.

Every call to the outside world is replaced by its outcome, passed in as a parameter:

- the Docker client: one `DockerApi` per function that builds a client;
- `syscall.Statfs`;
- the gopsutil calls.

Each modelled function is therefore total and pure. The Docker functions report the API calls they made, as `ApiCall` values. `GetCurrentInfo` reports its steps, as `Step` values, including the root's statfs and each host collector. The collectors report the lines they logged, as `LogEntry` values. This lets the model state which calls are skipped and which lines are written.

Modules, one per file:

- `Strconv` (strconv.dfy): `strconv.FormatInt` for any base from 2 to 36, and its inverse.
- `GoTypes` (go_types.dfy): `uint64`/`int64` ranges and wrapping `-` and `*`; `Option`, `Result` and `Ret`, the last being Go's `(value, error)` pair; the errors the core builds; log lines.
- `FsType` (fs_type.dfy): the magic-number table and `GetFSType`.
- `DiskUsage` (disk_usage.dfy): `Statfs`, `DockerRootInfo` and `GetPathDiskInfo`.
- `Swarm` (swarm.dfy): node and `/info` records, and redaction.
- `DockerFunctions` (docker_functions.dfy): core/dockerFunctions.go.
- `Collectors` (collectors.dfy): the host collectors.
- `Snapshot` (snapshot.dfy): `GetCurrentInfo`.

## Behaviours of the code worth knowing

- The magic-number table has 16 entries.
- On a corruption error, `GetPathDiskInfo` returns Total, Free, Files, Ffree and FSType filled in, with Used left at zero. `GetCurrentInfo` keeps those figures in the snapshot. Of `GetPathDiskInfo`'s two errors, only a statfs failure returns the zero record.
- `isANodeManager` reports true whenever this node can be inspected, whatever its manager status says.
- `GetCurrentInfo` never calls `GetNetInfo`, so the network counters are always empty.
- `GetHostInfo` and `GetNetInfo` drop their errors without logging them.
- `GetDiskInfo` ignores each partition's usage error and keeps whatever usage value came back.
- With no free inodes, `GetPathDiskInfo` succeeds with Total 0 (`NoFreeInodesNoSpace`). The percentage at core/systemFunctions.go:129 is then 0/0, a NaN, which JSON encoding rejects. That percentage is outside this model.

## Model

| member | source | states |
|---|---|---|
| Strconv.FormatInt | core/systemFunctions.go:91 | The hexadecimal text `GetFSType` looks up is non-empty, and starts with '-' exactly for negative numbers. |
| Strconv.FormatUint | core/systemFunctions.go:91 | The magnitude's digits are non-empty, all below the base, and have no leading zero. 0 prints as "0". |
| Strconv.FormatUintRoundTrip | core/systemFunctions.go:91 | Reading the digits back yields the number. |
| Strconv.FormatIntRoundTrip | core/systemFunctions.go:91 | Reading the printed text back, sign included, yields the number. |
| Strconv.FormatIntInjective | core/systemFunctions.go:91 | Different numbers never print the same. Only one magic number can hit a table key. |
| GoTypes.Sub64 | core/systemFunctions.go:107 | Go `uint64` subtraction: exact when no underflow, plus 2^64 when it underflows. |
| GoTypes.Message | core/systemFunctions.go:126 | The corruption error's text contains the free figure, the total figure (both in decimal) and the path. The text of the missing-node-ID error is "node ID not found in /info". Errors from collaborators keep their own text. |
| GoTypes.Mul64 | core/systemFunctions.go:111-112 | Go `uint64` multiplication: exact when the product fits, otherwise congruent to it modulo 2^64. |
| FsType.GetFSType | core/systemFunctions.go:90-97 | The result is "UNKNOWN" or one of the table's names. |
| FsType.KeyIsPrintedMagic | core/systemFunctions.go:70-87 | Every hexadecimal key of the table is how `FormatInt` prints exactly one listed magic number, whose name the key maps to. |
| FsType.GetFSTypeIsMagicLookup | core/systemFunctions.go:70-97 | The name for a magic number is the one the 16-entry table lists for it, and "UNKNOWN" for any other number. |
| FsType.UnknownMeansUnlisted | core/systemFunctions.go:90-97 | "UNKNOWN" is returned exactly for numbers outside the table. |
| FsType.NegativeCodesAreUnknown | core/systemFunctions.go:90-97 | A negative number prints with a '-', matches no key, and is "UNKNOWN". |
| DiskUsage.GetPathDiskInfo | core/systemFunctions.go:100-132 | See the breakdown after this table. |
| DiskUsage.TotalAndFreeFormulas | core/systemFunctions.go:107-112 | Total is `Ffree*(Blocks-(Bfree-Bavail))` and Free is `Ffree*Bavail`, each reduced modulo 2^64. The intermediate wrap-arounds lose nothing more. |
| DiskUsage.ConsistentCountersAreExact | core/systemFunctions.go:107-131 | For consistent counters (Bavail <= Bfree <= Blocks) without 64-bit overflow: no error, Total and Free are the plain products, and Used is `Ffree*(Blocks-Bfree)`. |
| DiskUsage.WrappedTotalReportsCorruption | core/systemFunctions.go:107-127 | Consistent counters whose Total wraps to 0 are reported as corruption, because the check compares wrapped values. |
| DiskUsage.NoFreeInodesNoSpace | core/systemFunctions.go:107-131 | With no free inodes, Total, Free and Used are all 0 and there is no error, whatever the block counts. |
| Swarm.Redact | core/dockerFunctions.go:53-56 | A redacted node has empty TLS info and engine description, and agrees with the original on every other field. |
| Swarm.RedactIsUnique | core/dockerFunctions.go:53-56 | Exactly one node meets `Redact`'s two promises. |
| Swarm.RedactAll | core/dockerFunctions.go:52-57 | The loop keeps the list's length and order, and redacts each node. |
| Swarm.RedactAllIdempotent | core/dockerFunctions.go:52-57 | Redacting a redacted list changes nothing. |
| DockerFunctions.GetDockerRootInfo | core/dockerFunctions.go:14-28 | Success exactly when the client builds and `/info` answers, yielding its root directory. Otherwise "" with the client's or `/info`'s error. `/info` is not called without a client. |
| DockerFunctions.GetNodeList | core/dockerFunctions.go:35-60 | See the breakdown after this table. |
| DockerFunctions.NodeReference | core/dockerFunctions.go:66-85 | Any reference other than "self" is returned as is, with no call. For "self": an `/info` error is passed through. A present node ID is returned after exactly one `/info` call. A missing node ID triggers a node listing; its error is reported if it fails, otherwise "node ID not found in /info". |
| DockerFunctions.ResolutionSucceedsWithId | core/dockerFunctions.go:66-85 | Resolution fails exactly for "self" when `/info` fails or has no node ID. A failure yields "". Resolving "self" yields the non-empty node ID. |
| DockerFunctions.EffectiveRef | core/dockerFunctions.go:91-93 | "" becomes "self"; any other reference is kept. |
| DockerFunctions.GetNodeInspect | core/dockerFunctions.go:88-113 | See the breakdown after this table. |
| DockerFunctions.EmptyReferenceIsSelf | core/dockerFunctions.go:88-93 | Inspecting "" and inspecting "self" give the same result and the same calls. |
| DockerFunctions.IsANodeManager | core/dockerFunctions.go:116-122 | Manager exactly when inspecting this node succeeds; the inspection's error and manager status are passed on. A non-manager has no status and an error. |
| DockerFunctions.ManagerIffSelfInspectable | core/dockerFunctions.go:116-122 | Manager exactly when the client builds, `/info` names a node ID, and inspecting that ID succeeds. |
| Collectors.Absorb | core/systemFunctions.go:150-216 | The shared error policy: the value and no log on success; the empty value and exactly one error line on failure. |
| Collectors.GetCPUInfo | core/systemFunctions.go:150-157 | The CPU list on success, or an empty list and the error logged. A log line is written exactly on failure. |
| Collectors.GetCPUPercentageUtilization | core/systemFunctions.go:159-167 | The utilisation samples on success, or an empty list and the error logged. A log line is written exactly on failure. |
| Collectors.GetCpuLoad | core/systemFunctions.go:170-177 | A non-nil load average exactly on success. On failure: nil and the error logged. |
| Collectors.GetMemInfo | core/systemFunctions.go:180-187 | Non-nil memory statistics exactly on success. On failure: nil and the error logged. |
| Collectors.UsageEntries | core/systemFunctions.go:196-204 | One entry per partition, in order, each with whatever usage its mount point gave. Usage errors are dropped. |
| Collectors.GetDiskInfo | core/systemFunctions.go:190-207 | A partition-listing failure gives an empty list and one log line. Otherwise every partition, in order, with its usage, and nothing logged. |
| Collectors.GetDiskIOCounterStat | core/systemFunctions.go:209-216 | The counters on success, or an empty map and the error logged. |
| Collectors.GetHostInfo | core/systemFunctions.go:219-222 | The host info is passed through and nothing is logged, even on error. |
| Collectors.GetNetInfo | core/systemFunctions.go:224-227 | The network counters are passed through and nothing is logged, even on error. |
| Snapshot.ListIfManager | core/systemFunctions.go:260-264 | For a manager: one redacted listing, whose nodes and error line are exactly what `GetNodeList` returned. Otherwise nothing is fetched, nothing is logged and the list is empty. |
| Snapshot.CollectDockerMetrics | core/systemFunctions.go:231-264 | See the breakdown after this table. |
| Snapshot.CollectSystemMetrics | core/systemFunctions.go:266-280 | All seven host collectors run, in order. Each field is its collector's value or empty value. The log is exactly one line per failing logging collector, in the order the collectors run. Partition usage errors and host-info errors are not logged. Network counters are empty. Nothing is logged exactly when every logging collector succeeds. |
| Snapshot.GetCurrentInfo | core/systemFunctions.go:229-290 | The snapshot starts with the root lookup and always ends with the seven host collectors. Docker errors are logged before host errors. Network counters are empty. No log line at all exactly when the Docker side and every host collector succeed. |
| Snapshot.HostMetricsIgnoreDocker | core/systemFunctions.go:229-290 | The host half of the snapshot does not depend on the Docker daemon's answers. |
| Snapshot.DockerDownSnapshot | core/systemFunctions.go:240-245 | With the root lookup failing, the Docker half is the zero value with status false. Only the host collectors follow. The lookup error is the first log line. |
| Snapshot.WorkerSkipsNodeList | core/systemFunctions.go:254-263 | A node that cannot inspect itself reports not-manager, no status and no node list, and never lists nodes. |

What each of the four long contracts states:

- **DiskUsage.GetPathDiskInfo**
  - A `statfs` failure gives the zero record and that error.
  - Otherwise path, file counts and FS type are copied.
  - An error is reported exactly when Free exceeds Total. That error is the corruption error carrying both figures and the path, with Used 0.
  - Without an error, Used + Free = Total.
- **DockerFunctions.GetNodeList**
  - Success exactly when the client builds and the listing answers.
  - On failure: an empty list and that error.
  - When asked to hide: same length, every node redacted, everything else kept.
  - Otherwise the list is returned untouched.
  - The calls are the client build, followed by exactly one listing when the client was built.
- **DockerFunctions.GetNodeInspect**
  - Success exactly when the client builds, the reference resolves, and inspecting the resolved ID works; the result is that node.
  - Any failure gives the zero node and the error that caused it: the client's, the resolution's, or the inspection's, unchanged.
  - When resolution fails, nothing is inspected. Otherwise the resolved ID is inspected exactly once, after the resolution calls.
  - "" and "self" ask `/info` first; any other reference is inspected directly.
- **Snapshot.CollectDockerMetrics**
  - A failed root lookup gives status false, zero root info, not-manager, no status and an empty list. It takes no other step and logs that error.
  - Otherwise the root's disk usage is read, keeping the path even on error, and the probe runs.
  - After a successful lookup, the steps are exactly: root lookup, one disk-usage read of that path, one manager probe, then one hidden node listing only for a manager. All listed nodes are redacted.
  - The log is exactly one line per failed step, in the order disk usage, manager probe, node list. Nothing is logged exactly when every step succeeded.

## Left out

- `PercentageUtilized` (core/systemFunctions.go:129) is floating point and is not modelled. `DockerRootInfo` has no such field, and CPU utilisation samples are opaque values.
- `PrintDiskUsage` is not modelled. It only formats sizes with go-humanize and panics on error.
- The HTTP server (server.go), the logger set-up (framework/logger.go) and core/initialize.go are not part of this model. Log lines are modelled as the error text the core would write.
- The real system calls, the Docker client and gopsutil are replaced by their outcomes. Records the core only passes through (CPU, memory, disk, host, network statistics and most node fields) are opaque values.
- Go distinguishes a nil slice from an empty one (`GetDiskInfo` returns nil on error). JSON shows them differently. The model uses the empty sequence for both.
- Error text is spelled out only for the errors the core itself builds:
  - the corruption error of `GetPathDiskInfo`;
  - "node ID not found in /info".

  Errors from collaborators are carried through unchanged.
- `Statfs` follows the 64-bit Linux layout: unsigned counters and a signed 64-bit type field. Other platforms' field widths are not modelled.
- Every Docker function builds its own client, so each gets its own `DockerApi` view of the daemon. Consistency between those views across one snapshot is not assumed.
- Collectors.UsageEntries: `disk.Usage` is modelled as a function of the mount point, so two partitions with the same mount point get the same usage. The Go loop calls it once per partition, at different times, and could see different answers.
- `GetCurrentInfo` is modelled as sequential. The one-second CPU sampling delay is not modelled, and neither is anything about timing.

=== FILE: collectors.dfy ===
/**
  The host-metric collectors of core/systemFunctions.go. Each wraps one
  gopsutil call, whose outcome arrives as an input. Most turn a failure into
  an empty value and one error line in the log; `GetHostInfo`, `GetNetInfo`
  and the per-partition usage in `GetDiskInfo` drop the error silently.
 */
module Collectors {
  import opened GoTypes

  /** A collector's value together with the log lines it wrote. */
  datatype Collected<+T> = Collected(value: T, logs: seq<LogEntry>)

  /**
    The error-to-empty policy: a collector's field is the collaborator's value
    when it succeeded, and the empty value with its error logged when it failed.
   */
  predicate Degraded<T(==)>(outcome: Result<T>, empty: T, field: T, logs: seq<LogEntry>)
  {
    && (outcome.Ok? ==> field == outcome.value)
    && (outcome.Err? ==> field == empty && ErrorLog(outcome.error) in logs)
  }

  /** The line a logging collector writes: one for a failure, none for a success. */
  function FailureLog<T>(outcome: Result<T>): (r: seq<LogEntry>)
    ensures r == [] <==> outcome.Ok?
    ensures outcome.Err? ==> r == [ErrorLog(outcome.error)]
  {
    if outcome.Err? then [ErrorLog(outcome.error)] else []
  }

  /** The shape shared by the logging collectors: nothing logged on success, one line on failure. */
  function Absorb<T>(outcome: Result<T>, empty: T): (r: Collected<T>)
    ensures r.logs == [] <==> outcome.Ok?
    ensures outcome.Ok? ==> r.value == outcome.value
    ensures outcome.Err? ==> r.value == empty && r.logs == [ErrorLog(outcome.error)]
  {
    match outcome
    case Ok(v) => Collected(v, [])
    case Err(e) => Collected(empty, [ErrorLog(e)])
  }

  /** Pointer results: a value becomes a non-nil pointer to it. */
  function AsPointer<T>(outcome: Result<T>): (r: Result<Option<T>>)
    ensures r.Ok? <==> outcome.Ok?
    ensures outcome.Ok? ==> r.value == Some(outcome.value)
    ensures outcome.Err? ==> r.error == outcome.error
  {
    match outcome
    case Ok(v) => Ok(Some(v))
    case Err(e) => Err(e)
  }

  /** `GetCPUInfo`: the CPU descriptions, or an empty list. */
  function GetCPUInfo(outcome: Result<seq<Opaque>>): (r: Collected<seq<Opaque>>)
    ensures Degraded(outcome, [], r.value, r.logs)
    ensures |r.logs| <= 1 && (r.logs == [] <==> outcome.Ok?)
  {
    Absorb(outcome, [])
  }

  /** `GetCPUPercentageUtilization`: the one-second utilisation sample, or an empty list. */
  function GetCPUPercentageUtilization(outcome: Result<seq<Opaque>>): (r: Collected<seq<Opaque>>)
    ensures Degraded(outcome, [], r.value, r.logs)
    ensures |r.logs| <= 1 && (r.logs == [] <==> outcome.Ok?)
  {
    Absorb(outcome, [])
  }

  /** `GetCpuLoad`: the load averages, or nil. */
  function GetCpuLoad(outcome: Result<Opaque>): (r: Collected<Option<Opaque>>)
    ensures Degraded(AsPointer(outcome), None, r.value, r.logs)
    ensures r.value.Some? <==> outcome.Ok?
    ensures |r.logs| <= 1 && (r.logs == [] <==> outcome.Ok?)
  {
    Absorb(AsPointer(outcome), None)
  }

  /** `GetMemInfo`: the virtual-memory statistics, or nil. */
  function GetMemInfo(outcome: Result<Opaque>): (r: Collected<Option<Opaque>>)
    ensures Degraded(AsPointer(outcome), None, r.value, r.logs)
    ensures r.value.Some? <==> outcome.Ok?
    ensures |r.logs| <= 1 && (r.logs == [] <==> outcome.Ok?)
  {
    Absorb(AsPointer(outcome), None)
  }

  /** `disk.PartitionStat`. */
  datatype Partition = Partition(device: string, mountpoint: string, fstype: string, opts: seq<string>)

  /** `diskInfo`: a partition and its usage (nil when the usage call gave none). */
  datatype DiskInfoEntry = DiskInfoEntry(partition: Partition, diskUsage: Option<Opaque>)

  /** The loop of `GetDiskInfo`: one entry per partition, usage errors ignored. */
  function UsageEntries(parts: seq<Partition>, usage: string -> Ret<Option<Opaque>>): (r: seq<DiskInfoEntry>)
    ensures |r| == |parts|
    ensures forall i :: 0 <= i < |r| ==>
      r[i].partition == parts[i] && r[i].diskUsage == usage(parts[i].mountpoint).value
  {
    if |parts| == 0 then []
    else [DiskInfoEntry(parts[0], usage(parts[0].mountpoint).value)] + UsageEntries(parts[1..], usage)
  }

  /**
    `GetDiskInfo`: every partition, in order, with whatever `disk.Usage`
    returned for its mount point; only a failure to list partitions is logged.
   */
  function GetDiskInfo(partitions: Result<seq<Partition>>, usage: string -> Ret<Option<Opaque>>)
    : (r: Collected<seq<DiskInfoEntry>>)
    ensures partitions.Err? ==> r.value == [] && r.logs == [ErrorLog(partitions.error)]
    ensures partitions.Ok? ==> r.logs == [] && |r.value| == |partitions.value|
    ensures partitions.Ok? ==> forall i :: 0 <= i < |r.value| ==>
      r.value[i].partition == partitions.value[i]
      && r.value[i].diskUsage == usage(partitions.value[i].mountpoint).value
  {
    match partitions
    case Err(e) => Collected([], [ErrorLog(e)])
    case Ok(parts) => Collected(UsageEntries(parts, usage), [])
  }

  /** `GetDiskIOCounterStat`: the per-device I/O counters, or an empty map. */
  function GetDiskIOCounterStat(outcome: Result<map<string, Opaque>>): (r: Collected<map<string, Opaque>>)
    ensures Degraded(outcome, map[], r.value, r.logs)
    ensures |r.logs| <= 1 && (r.logs == [] <==> outcome.Ok?)
  {
    Absorb(outcome, map[])
  }

  /** `GetHostInfo`: whatever `host.Info` returned; its error is dropped unlogged. */
  function GetHostInfo(outcome: Ret<Option<Opaque>>): (r: Collected<Option<Opaque>>)
    ensures r.logs == []
    ensures r.value == outcome.value
  {
    Collected(outcome.value, [])
  }

  /** `GetNetInfo`: whatever `net.IOCounters` returned; its error is dropped unlogged. */
  function GetNetInfo(outcome: Ret<seq<Opaque>>): (r: Collected<seq<Opaque>>)
    ensures r.logs == []
    ensures r.value == outcome.value
  {
    Collected(outcome.value, [])
  }
}

=== FILE: disk_usage.dfy ===
/**
  Filesystem usage of the Docker root directory (`GetPathDiskInfo` in
  core/systemFunctions.go). The raw statfs counters arrive as an input; all
  arithmetic is Go `uint64` arithmetic, so it wraps modulo 2^64, and the
  corruption check compares the wrapped values.
 */
module DiskUsage {
  import opened GoTypes
  import FsType

  /** The statfs(2) counters the exporter reads (Linux, 64-bit). */
  datatype Statfs = Statfs(
    fsType: Int64,   // filesystem magic number
    blocks: Uint64,  // total data blocks
    bfree: Uint64,   // free blocks
    bavail: Uint64,  // free blocks available to unprivileged users
    files: Uint64,   // total inodes
    ffree: Uint64)   // free inodes

  /** `DockerRootInfo`, without the floating-point `PercentageUtilized`. */
  datatype DockerRootInfo = DockerRootInfo(
    path: string,
    total: Uint64,
    free: Uint64,
    used: Uint64,
    files: Uint64,
    ffree: Uint64,
    fsType: string)

  /** The Go zero value `DockerRootInfo{}`. */
  const ZeroRootInfo := DockerRootInfo("", 0, 0, 0, 0, 0, "")

  /**
    `GetPathDiskInfo(path)`, given the outcome of `syscall.Statfs(path)`.
    Total and Free are computed first; they are returned, with Used left at
    zero, alongside the corruption error when Free exceeds Total.
   */
  function GetPathDiskInfo(path: string, statfs: Result<Statfs>): (r: Ret<DockerRootInfo>)
    ensures statfs.Err? ==> r == Ret(ZeroRootInfo, Some(statfs.error))
    ensures statfs.Ok? ==>
      && r.value.path == path
      && r.value.files == statfs.value.files
      && r.value.ffree == statfs.value.ffree
      && r.value.fsType == FsType.GetFSType(statfs.value.fsType)
    ensures statfs.Ok? ==> (r.err.Some? <==> r.value.free > r.value.total)
    ensures statfs.Ok? && r.err.Some? ==>
      r.err.value == FsCorruption(r.value.free, r.value.total, path) && r.value.used == 0
    ensures r.err.None? ==> r.value.used <= r.value.total && r.value.used + r.value.free == r.value.total
  {
    match statfs
    case Err(e) => Ret(ZeroRootInfo, Some(e))
    case Ok(s) =>
      var reservedBlocks := Sub64(s.bfree, s.bavail);
      var info := DockerRootInfo(
        path,
        Mul64(s.ffree, Sub64(s.blocks, reservedBlocks)),
        Mul64(s.ffree, s.bavail),
        0,
        s.files,
        s.ffree,
        FsType.GetFSType(s.fsType));
      if info.free > info.total then
        Ret(info, Some(FsCorruption(info.free, info.total, path)))
      else
        Ret(info.(used := Sub64(info.total, info.free)), None)
  }

  /** Adding a multiple of 2^64 does not change a value modulo 2^64. */
  lemma ModShift(a: int, k: int)
    ensures (a + k * TwoTo64) % TwoTo64 == a % TwoTo64
  {
  }

  /** Multiplying congruent values by the same factor keeps them congruent. */
  lemma MulCongruent(f: int, x: int, y: int)
    requires (x - y) % TwoTo64 == 0
    ensures (f * x) % TwoTo64 == (f * y) % TwoTo64
  {
    var k := (x - y) / TwoTo64;
    assert x == y + k * TwoTo64;
    assert f * x == f * y + (f * k) * TwoTo64;
    ModShift(f * y, f * k);
  }

  /**
    Total and Free are the exact counter formulas reduced modulo 2^64: the
    nested wrap-arounds of the Go code lose nothing beyond the final wrap.
   */
  lemma TotalAndFreeFormulas(path: string, s: Statfs)
    ensures GetPathDiskInfo(path, Ok(s)).value.total
      == (s.ffree * (s.blocks - (s.bfree - s.bavail))) % TwoTo64
    ensures GetPathDiskInfo(path, Ok(s)).value.free == (s.ffree * s.bavail) % TwoTo64
  {
    var available := Sub64(s.blocks, Sub64(s.bfree, s.bavail));
    var exact := s.blocks - (s.bfree - s.bavail);
    assert (available - exact) % TwoTo64 == 0;
    MulCongruent(s.ffree, available, exact);
  }

  /** Products by a non-negative factor keep the order of their operands. */
  lemma ScaledOrder(f: nat, small: int, large: int)
    requires small <= large
    ensures f * small <= f * large
  {
    assert f * large - f * small == f * (large - small);
  }

  /**
    For counters a healthy filesystem reports (available <= free <= total
    blocks) and no 64-bit overflow, nothing wraps: there is no corruption
    error and the figures are the plain products.
   */
  lemma ConsistentCountersAreExact(path: string, s: Statfs)
    requires s.bavail <= s.bfree <= s.blocks
    requires s.ffree * s.blocks < TwoTo64
    ensures var r := GetPathDiskInfo(path, Ok(s));
      && r.err == None
      && r.value.total == s.ffree * (s.blocks - s.bfree + s.bavail)
      && r.value.free == s.ffree * s.bavail
      && r.value.used == s.ffree * (s.blocks - s.bfree)
  {
    var available := s.blocks - s.bfree + s.bavail;
    assert Sub64(s.blocks, Sub64(s.bfree, s.bavail)) == available;
    ScaledOrder(s.ffree, available, s.blocks);
    ScaledOrder(s.ffree, s.bavail, available);
    var total, free := s.ffree * available, s.ffree * s.bavail;
    assert Mul64(s.ffree, available) == total;
    assert Mul64(s.ffree, s.bavail) == free;
    assert total - free == s.ffree * (s.blocks - s.bfree);
  }

  /**
    The check compares wrapped values, so counters that are consistent can
    still be reported as corruption: with 2^32 free inodes and 2^32 blocks of
    which all but one are free, Total wraps to 0 while Free does not.
   */
  lemma WrappedTotalReportsCorruption()
    ensures var s := Statfs(0xEF53, 0x1_0000_0000, 0xFFFF_FFFF, 0xFFFF_FFFF, 0, 0x1_0000_0000);
      && s.bavail <= s.bfree <= s.blocks
      && GetPathDiskInfo("/var/lib/docker", Ok(s)).value.total == 0
      && GetPathDiskInfo("/var/lib/docker", Ok(s)).err.Some?
  {
  }

  /**
    Both sizes are multiples of the free-inode count: a filesystem with no
    free inodes reports zero total, free and used space whatever its blocks.
   */
  lemma NoFreeInodesNoSpace(path: string, s: Statfs)
    requires s.ffree == 0
    ensures var r := GetPathDiskInfo(path, Ok(s));
      r.err == None && r.value.total == 0 && r.value.free == 0 && r.value.used == 0
  {
  }
}

=== FILE: docker_functions.dfy ===
/**
  The Docker API side of the exporter (core/dockerFunctions.go). The Docker
  daemon is replaced by the answers it gives: every function receives a
  `DockerApi` holding the outcome of constructing a client and of each
  endpoint, and reports the API calls it made, in order, so that a call that
  was skipped can be stated.
 */
module DockerFunctions {
  import opened GoTypes
  import opened Swarm

  /** The answers of one Docker client, call by call. */
  datatype DockerApi = DockerApi(
    newClient: Option<Error>,                // client.NewClientWithOpts(FromEnv, ...)
    info: Result<Info>,                      // GET /info
    nodeList: Result<seq<Node>>,             // GET /nodes
    nodeInspect: string -> Result<Node>)     // GET /nodes/{id}

  datatype ApiCall = NewClient | InfoCall | NodeListCall | NodeInspectCall(nodeRef: string)

  /** A result together with the API calls made to compute it. */
  datatype Traced<+T> = Traced(out: T, calls: seq<ApiCall>)

  /** `GetDockerRootInfo`: the daemon's root directory, or "" and the error. */
  function GetDockerRootInfo(api: DockerApi): (r: Traced<Ret<string>>)
    ensures r.out.err.None? <==> api.newClient.None? && api.info.Ok?
    ensures r.out.err.None? ==> r.out.value == api.info.value.dockerRootDir
    ensures r.out.err.Some? ==> r.out.value == ""
    ensures api.newClient.Some? ==> r.out.err == api.newClient && r.calls == [NewClient]
    ensures api.newClient.None? && api.info.Err? ==> r.out.err == Some(api.info.error)
    ensures api.newClient.None? ==> r.calls == [NewClient, InfoCall]
  {
    match api.newClient
    case Some(e) => Traced(Ret("", Some(e)), [NewClient])
    case None =>
      match api.info
      case Err(e) => Traced(Ret("", Some(e)), [NewClient, InfoCall])
      case Ok(info) => Traced(Ret(info.dockerRootDir, None), [NewClient, InfoCall])
  }

  /**
    `GetNodeList(hideTlsAndEngine)`: the swarm's nodes, with certificates and
    engine details cleared when asked; an empty list and the error otherwise.
   */
  function GetNodeList(api: DockerApi, hideTlsAndEngine: bool): (r: Traced<Ret<seq<Node>>>)
    ensures r.out.err.None? <==> api.newClient.None? && api.nodeList.Ok?
    ensures r.out.err.Some? ==> r.out.value == []
    ensures api.newClient.Some? ==> r.out.err == api.newClient
    ensures api.newClient.None? && api.nodeList.Err? ==> r.out.err == Some(api.nodeList.error)
    ensures r.out.err.None? && !hideTlsAndEngine ==> r.out.value == api.nodeList.value
    ensures r.out.err.None? && hideTlsAndEngine ==>
      && |r.out.value| == |api.nodeList.value|
      && forall i :: 0 <= i < |r.out.value| ==>
           Redacted(r.out.value[i]) && SameOutsideSecrets(api.nodeList.value[i], r.out.value[i])
    ensures r.calls == if api.newClient.Some? then [NewClient] else [NewClient, NodeListCall]
  {
    match api.newClient
    case Some(e) => Traced(Ret([], Some(e)), [NewClient])
    case None =>
      match api.nodeList
      case Err(e) => Traced(Ret([], Some(e)), [NewClient, NodeListCall])
      case Ok(list) =>
        var shown := if hideTlsAndEngine then RedactAll(list) else list;
        Traced(Ret(shown, None), [NewClient, NodeListCall])
  }

  /**
    `getNodeference`: "self" becomes this node's ID from `/info`; any other
    reference is returned as it is, without asking the daemon. When `/info`
    has no node ID, a node listing is attempted only to report its error in
    preference to "node ID not found in /info".
   */
  function NodeReference(api: DockerApi, ref: string): (r: Traced<Ret<string>>)
    ensures ref != "self" ==> r == Traced(Ret(ref, None), [])
    ensures ref == "self" ==> |r.calls| > 0 && r.calls[0] == InfoCall
    ensures ref == "self" && api.info.Err? ==> r.out == Ret("", Some(api.info.error)) && r.calls == [InfoCall]
    ensures ref == "self" && api.info.Ok? && api.info.value.swarmNodeId != "" ==>
      r.out == Ret(api.info.value.swarmNodeId, None) && r.calls == [InfoCall]
    ensures ref == "self" && api.info.Ok? && api.info.value.swarmNodeId == "" ==>
      && r.calls == [InfoCall, NodeListCall]
      && r.out.value == ""
      && r.out.err == Some(if api.nodeList.Err? then api.nodeList.error else NodeIdNotFound)
  {
    if ref == "self" then
      match api.info
      case Err(e) => Traced(Ret("", Some(e)), [InfoCall])
      case Ok(info) =>
        if info.swarmNodeId == "" then
          match api.nodeList
          case Err(e) => Traced(Ret("", Some(e)), [InfoCall, NodeListCall])
          case Ok(_) => Traced(Ret("", Some(NodeIdNotFound)), [InfoCall, NodeListCall])
        else
          Traced(Ret(info.swarmNodeId, None), [InfoCall])
    else
      Traced(Ret(ref, None), [])
  }

  /**
    Resolution fails exactly for "self" without a node ID in `/info`; a
    failed resolution yields "" and a successful one for "self" a non-empty ID.
   */
  lemma ResolutionSucceedsWithId(api: DockerApi, ref: string)
    ensures var r := NodeReference(api, ref);
      r.out.err.None? <==> (ref != "self" || (api.info.Ok? && api.info.value.swarmNodeId != ""))
    ensures var r := NodeReference(api, ref);
      r.out.err.Some? ==> r.out.value == ""
    ensures var r := NodeReference(api, ref);
      ref == "self" && r.out.err.None? ==> r.out.value != "" && r.out.value == api.info.value.swarmNodeId
  {
  }

  /** The reference `GetNodeInspect` resolves: "" stands for "self". */
  function EffectiveRef(ref: string): (r: string)
    ensures ref == "" ==> r == "self"
    ensures ref != "" ==> r == ref
  {
    if ref == "" then "self" else ref
  }

  /**
    `GetNodeInspect(ref)`: the node record for a reference; on any failure
    (client, resolution or inspection) the zero node and that error.
   */
  function GetNodeInspect(api: DockerApi, ref: string): (r: Traced<Ret<Node>>)
    ensures r.out.err.Some? ==> r.out.value == ZeroNode
    ensures r.out.err.None? <==>
      && api.newClient.None?
      && NodeReference(api, EffectiveRef(ref)).out.err.None?
      && api.nodeInspect(NodeReference(api, EffectiveRef(ref)).out.value).Ok?
    ensures r.out.err.None? ==>
      r.out.value == api.nodeInspect(NodeReference(api, EffectiveRef(ref)).out.value).value
    ensures api.newClient.Some? ==> r.out.err == api.newClient && r.calls == [NewClient]
    ensures api.newClient.None? ==> |r.calls| > 0 && r.calls[0] == NewClient
    ensures (ref == "" || ref == "self") && api.newClient.None? ==> |r.calls| > 1 && r.calls[1] == InfoCall
    ensures ref != "" && ref != "self" && api.newClient.None? ==>
      r.calls == [NewClient, NodeInspectCall(ref)]
    // a failed resolution is reported as it is, and nothing is inspected
    ensures var res := NodeReference(api, EffectiveRef(ref));
      api.newClient.None? && res.out.err.Some? ==>
        r.out.err == res.out.err && r.calls == [NewClient] + res.calls
    // a resolved ID is inspected once, after resolution, and its error reported as it is
    ensures var res := NodeReference(api, EffectiveRef(ref));
      api.newClient.None? && res.out.err.None? ==>
        && r.calls == [NewClient] + res.calls + [NodeInspectCall(res.out.value)]
        && (api.nodeInspect(res.out.value).Err? ==> r.out.err == Some(api.nodeInspect(res.out.value).error))
  {
    var nodeRef := EffectiveRef(ref);
    match api.newClient
    case Some(e) => Traced(Ret(ZeroNode, Some(e)), [NewClient])
    case None =>
      var resolved := NodeReference(api, nodeRef);
      var calls := [NewClient] + resolved.calls;
      match resolved.out.err
      case Some(e) => Traced(Ret(ZeroNode, Some(e)), calls)
      case None =>
        var id := resolved.out.value;
        match api.nodeInspect(id)
        case Err(e) => Traced(Ret(ZeroNode, Some(e)), calls + [NodeInspectCall(id)])
        case Ok(node) => Traced(Ret(node, None), calls + [NodeInspectCall(id)])
  }

  /** An empty reference is inspected exactly as "self" is. */
  lemma EmptyReferenceIsSelf(api: DockerApi)
    ensures GetNodeInspect(api, "") == GetNodeInspect(api, "self")
  {
  }

  /** `isANodeManager`'s three results. */
  datatype ManagerProbe = ManagerProbe(isManager: bool, managerStatus: Option<ManagerStatus>, err: Option<Error>)

  /**
    `isANodeManager`: true exactly when this node can be inspected, whatever
    its manager status says; on failure false, no manager status, and the error.
   */
  function IsANodeManager(api: DockerApi): (r: Traced<ManagerProbe>)
    ensures var inspected := GetNodeInspect(api, "");
      && (r.out.isManager <==> inspected.out.err.None?)
      && r.out.err == inspected.out.err
      && r.out.managerStatus == inspected.out.value.managerStatus
      && r.calls == inspected.calls
    ensures !r.out.isManager ==> r.out.managerStatus == None && r.out.err.Some?
  {
    var inspected := GetNodeInspect(api, "");
    match inspected.out.err
    case Some(e) => Traced(ManagerProbe(false, inspected.out.value.managerStatus, Some(e)), inspected.calls)
    case None => Traced(ManagerProbe(true, inspected.out.value.managerStatus, None), inspected.calls)
  }

  /**
    In terms of the daemon's answers: this node counts as a manager exactly
    when a client can be built, `/info` names it, and inspecting that ID works.
   */
  lemma ManagerIffSelfInspectable(api: DockerApi)
    ensures IsANodeManager(api).out.isManager <==>
      && api.newClient.None?
      && api.info.Ok?
      && api.info.value.swarmNodeId != ""
      && api.nodeInspect(api.info.value.swarmNodeId).Ok?
  {
  }
}

=== FILE: fs_type.dfy ===
/**
  Filesystem type names (core/systemFunctions.go): the statfs magic number is
  printed in base 16 and looked up in a fixed table of sixteen entries; a
  code whose text is not a key reads "UNKNOWN".
 */
module FsType {
  import opened GoTypes
  import Strconv

  const Unknown := "UNKNOWN"

  /** `fsType2StringMap`: keys are magic numbers as lower-case base-16 text. */
  const FsTypeNames: map<string, string> := map[
    "1021994" := "TMPFS",
    "137d" := "EXT",
    "4244" := "HFS",
    "4d44" := "MSDOS",
    "52654973" := "REISERFS",
    "5346544e" := "NTFS",
    "58465342" := "XFS",
    "61756673" := "AUFS",
    "6969" := "NFS",
    "ef51" := "EXT2OLD",
    "ef53" := "EXT4",
    "f15f" := "ecryptfs",
    "794c7630" := "overlayfs",
    "2fc12fc1" := "zfs",
    "ff534d42" := "cifs",
    "53464846" := "wslfs"
  ]

  /** The same table keyed by number: what the text keys stand for. */
  const KnownMagic: map<int, string> := map[
    0x1021994 := "TMPFS",
    0x137d := "EXT",
    0x4244 := "HFS",
    0x4d44 := "MSDOS",
    0x52654973 := "REISERFS",
    0x5346544e := "NTFS",
    0x58465342 := "XFS",
    0x61756673 := "AUFS",
    0x6969 := "NFS",
    0xef51 := "EXT2OLD",
    0xef53 := "EXT4",
    0xf15f := "ecryptfs",
    0x794c7630 := "overlayfs",
    0x2fc12fc1 := "zfs",
    0xff534d42 := "cifs",
    0x53464846 := "wslfs"
  ]

  /** `GetFSType`: never fails; a code whose text is not a key reads "UNKNOWN". */
  function GetFSType(ftype: Int64): (name: string)
    ensures name == Unknown || name in FsTypeNames.Values
  {
    var hex := Strconv.FormatInt(ftype, 16);
    if hex in FsTypeNames then FsTypeNames[hex] else Unknown
  }

  // Table entries one at a time. `Prints*` evaluates one printing; `Entry*`
  // ties it to both tables. Callers reach them through variables rather than
  // literals, which keeps each proof obligation small.

  lemma PrintsTmpfs(m: int)
    requires m == 0x1021994
    ensures Strconv.FormatInt(m, 16) == "1021994"
  {
  }

  lemma EntryTmpfs(m: int, hex: string)
    requires m == 0x1021994 && hex == "1021994"
    ensures m in KnownMagic && hex in FsTypeNames
    ensures Strconv.FormatInt(m, 16) == hex && FsTypeNames[hex] == KnownMagic[m]
  {
    PrintsTmpfs(m);
  }

  lemma PrintsExt(m: int)
    requires m == 0x137d
    ensures Strconv.FormatInt(m, 16) == "137d"
  {
  }

  lemma EntryExt(m: int, hex: string)
    requires m == 0x137d && hex == "137d"
    ensures m in KnownMagic && hex in FsTypeNames
    ensures Strconv.FormatInt(m, 16) == hex && FsTypeNames[hex] == KnownMagic[m]
  {
    PrintsExt(m);
  }

  lemma PrintsHfs(m: int)
    requires m == 0x4244
    ensures Strconv.FormatInt(m, 16) == "4244"
  {
  }

  lemma EntryHfs(m: int, hex: string)
    requires m == 0x4244 && hex == "4244"
    ensures m in KnownMagic && hex in FsTypeNames
    ensures Strconv.FormatInt(m, 16) == hex && FsTypeNames[hex] == KnownMagic[m]
  {
    PrintsHfs(m);
  }

  lemma PrintsMsdos(m: int)
    requires m == 0x4d44
    ensures Strconv.FormatInt(m, 16) == "4d44"
  {
  }

  lemma EntryMsdos(m: int, hex: string)
    requires m == 0x4d44 && hex == "4d44"
    ensures m in KnownMagic && hex in FsTypeNames
    ensures Strconv.FormatInt(m, 16) == hex && FsTypeNames[hex] == KnownMagic[m]
  {
    PrintsMsdos(m);
  }

  lemma PrintsReiserfs(m: int)
    requires m == 0x52654973
    ensures Strconv.FormatInt(m, 16) == "52654973"
  {
  }

  lemma EntryReiserfs(m: int, hex: string)
    requires m == 0x52654973 && hex == "52654973"
    ensures m in KnownMagic && hex in FsTypeNames
    ensures Strconv.FormatInt(m, 16) == hex && FsTypeNames[hex] == KnownMagic[m]
  {
    PrintsReiserfs(m);
  }

  lemma PrintsNtfs(m: int)
    requires m == 0x5346544e
    ensures Strconv.FormatInt(m, 16) == "5346544e"
  {
  }

  lemma EntryNtfs(m: int, hex: string)
    requires m == 0x5346544e && hex == "5346544e"
    ensures m in KnownMagic && hex in FsTypeNames
    ensures Strconv.FormatInt(m, 16) == hex && FsTypeNames[hex] == KnownMagic[m]
  {
    PrintsNtfs(m);
  }

  lemma PrintsXfs(m: int)
    requires m == 0x58465342
    ensures Strconv.FormatInt(m, 16) == "58465342"
  {
  }

  lemma EntryXfs(m: int, hex: string)
    requires m == 0x58465342 && hex == "58465342"
    ensures m in KnownMagic && hex in FsTypeNames
    ensures Strconv.FormatInt(m, 16) == hex && FsTypeNames[hex] == KnownMagic[m]
  {
    PrintsXfs(m);
  }

  lemma PrintsAufs(m: int)
    requires m == 0x61756673
    ensures Strconv.FormatInt(m, 16) == "61756673"
  {
  }

  lemma EntryAufs(m: int, hex: string)
    requires m == 0x61756673 && hex == "61756673"
    ensures m in KnownMagic && hex in FsTypeNames
    ensures Strconv.FormatInt(m, 16) == hex && FsTypeNames[hex] == KnownMagic[m]
  {
    PrintsAufs(m);
  }

  lemma PrintsNfs(m: int)
    requires m == 0x6969
    ensures Strconv.FormatInt(m, 16) == "6969"
  {
  }

  lemma EntryNfs(m: int, hex: string)
    requires m == 0x6969 && hex == "6969"
    ensures m in KnownMagic && hex in FsTypeNames
    ensures Strconv.FormatInt(m, 16) == hex && FsTypeNames[hex] == KnownMagic[m]
  {
    PrintsNfs(m);
  }

  lemma PrintsExt2old(m: int)
    requires m == 0xef51
    ensures Strconv.FormatInt(m, 16) == "ef51"
  {
  }

  lemma EntryExt2old(m: int, hex: string)
    requires m == 0xef51 && hex == "ef51"
    ensures m in KnownMagic && hex in FsTypeNames
    ensures Strconv.FormatInt(m, 16) == hex && FsTypeNames[hex] == KnownMagic[m]
  {
    PrintsExt2old(m);
  }

  lemma PrintsExt4(m: int)
    requires m == 0xef53
    ensures Strconv.FormatInt(m, 16) == "ef53"
  {
  }

  lemma EntryExt4(m: int, hex: string)
    requires m == 0xef53 && hex == "ef53"
    ensures m in KnownMagic && hex in FsTypeNames
    ensures Strconv.FormatInt(m, 16) == hex && FsTypeNames[hex] == KnownMagic[m]
  {
    PrintsExt4(m);
  }

  lemma PrintsEcryptfs(m: int)
    requires m == 0xf15f
    ensures Strconv.FormatInt(m, 16) == "f15f"
  {
  }

  lemma EntryEcryptfs(m: int, hex: string)
    requires m == 0xf15f && hex == "f15f"
    ensures m in KnownMagic && hex in FsTypeNames
    ensures Strconv.FormatInt(m, 16) == hex && FsTypeNames[hex] == KnownMagic[m]
  {
    PrintsEcryptfs(m);
  }

  lemma PrintsOverlayfs(m: int)
    requires m == 0x794c7630
    ensures Strconv.FormatInt(m, 16) == "794c7630"
  {
  }

  lemma EntryOverlayfs(m: int, hex: string)
    requires m == 0x794c7630 && hex == "794c7630"
    ensures m in KnownMagic && hex in FsTypeNames
    ensures Strconv.FormatInt(m, 16) == hex && FsTypeNames[hex] == KnownMagic[m]
  {
    PrintsOverlayfs(m);
  }

  lemma PrintsZfs(m: int)
    requires m == 0x2fc12fc1
    ensures Strconv.FormatInt(m, 16) == "2fc12fc1"
  {
  }

  lemma EntryZfs(m: int, hex: string)
    requires m == 0x2fc12fc1 && hex == "2fc12fc1"
    ensures m in KnownMagic && hex in FsTypeNames
    ensures Strconv.FormatInt(m, 16) == hex && FsTypeNames[hex] == KnownMagic[m]
  {
    PrintsZfs(m);
  }

  lemma PrintsCifs(m: int)
    requires m == 0xff534d42
    ensures Strconv.FormatInt(m, 16) == "ff534d42"
  {
  }

  lemma EntryCifs(m: int, hex: string)
    requires m == 0xff534d42 && hex == "ff534d42"
    ensures m in KnownMagic && hex in FsTypeNames
    ensures Strconv.FormatInt(m, 16) == hex && FsTypeNames[hex] == KnownMagic[m]
  {
    PrintsCifs(m);
  }

  lemma PrintsWslfs(m: int)
    requires m == 0x53464846
    ensures Strconv.FormatInt(m, 16) == "53464846"
  {
  }

  lemma EntryWslfs(m: int, hex: string)
    requires m == 0x53464846 && hex == "53464846"
    ensures m in KnownMagic && hex in FsTypeNames
    ensures Strconv.FormatInt(m, 16) == hex && FsTypeNames[hex] == KnownMagic[m]
  {
    PrintsWslfs(m);
  }

  lemma MagicPrintsToKeyPart1(m: int)
    requires m == 0x1021994 || m == 0x137d || m == 0x4244 || m == 0x4d44
    ensures Strconv.FormatInt(m, 16) in FsTypeNames
    ensures FsTypeNames[Strconv.FormatInt(m, 16)] == KnownMagic[m]
  {
    if m == 0x1021994 {
      var hex :| hex == "1021994";
      EntryTmpfs(m, hex);
    } else if m == 0x137d {
      var hex :| hex == "137d";
      EntryExt(m, hex);
    } else if m == 0x4244 {
      var hex :| hex == "4244";
      EntryHfs(m, hex);
    } else if m == 0x4d44 {
      var hex :| hex == "4d44";
      EntryMsdos(m, hex);
    }
  }

  lemma MagicPrintsToKeyPart2(m: int)
    requires m == 0x52654973 || m == 0x5346544e || m == 0x58465342 || m == 0x61756673
    ensures Strconv.FormatInt(m, 16) in FsTypeNames
    ensures FsTypeNames[Strconv.FormatInt(m, 16)] == KnownMagic[m]
  {
    if m == 0x52654973 {
      var hex :| hex == "52654973";
      EntryReiserfs(m, hex);
    } else if m == 0x5346544e {
      var hex :| hex == "5346544e";
      EntryNtfs(m, hex);
    } else if m == 0x58465342 {
      var hex :| hex == "58465342";
      EntryXfs(m, hex);
    } else if m == 0x61756673 {
      var hex :| hex == "61756673";
      EntryAufs(m, hex);
    }
  }

  lemma MagicPrintsToKeyPart3(m: int)
    requires m == 0x6969 || m == 0xef51 || m == 0xef53 || m == 0xf15f
    ensures Strconv.FormatInt(m, 16) in FsTypeNames
    ensures FsTypeNames[Strconv.FormatInt(m, 16)] == KnownMagic[m]
  {
    if m == 0x6969 {
      var hex :| hex == "6969";
      EntryNfs(m, hex);
    } else if m == 0xef51 {
      var hex :| hex == "ef51";
      EntryExt2old(m, hex);
    } else if m == 0xef53 {
      var hex :| hex == "ef53";
      EntryExt4(m, hex);
    } else if m == 0xf15f {
      var hex :| hex == "f15f";
      EntryEcryptfs(m, hex);
    }
  }

  lemma MagicPrintsToKeyPart4(m: int)
    requires m == 0x794c7630 || m == 0x2fc12fc1 || m == 0xff534d42 || m == 0x53464846
    ensures Strconv.FormatInt(m, 16) in FsTypeNames
    ensures FsTypeNames[Strconv.FormatInt(m, 16)] == KnownMagic[m]
  {
    if m == 0x794c7630 {
      var hex :| hex == "794c7630";
      EntryOverlayfs(m, hex);
    } else if m == 0x2fc12fc1 {
      var hex :| hex == "2fc12fc1";
      EntryZfs(m, hex);
    } else if m == 0xff534d42 {
      var hex :| hex == "ff534d42";
      EntryCifs(m, hex);
    } else if m == 0x53464846 {
      var hex :| hex == "53464846";
      EntryWslfs(m, hex);
    }
  }

  /** Every numeric code prints as a text key naming the same filesystem. */
  lemma MagicPrintsToKey(m: int)
    requires m in KnownMagic
    ensures Strconv.FormatInt(m, 16) in FsTypeNames
    ensures FsTypeNames[Strconv.FormatInt(m, 16)] == KnownMagic[m]
  {
    if m == 0x1021994 || m == 0x137d || m == 0x4244 || m == 0x4d44 {
      MagicPrintsToKeyPart1(m);
    } else if m == 0x52654973 || m == 0x5346544e || m == 0x58465342 || m == 0x61756673 {
      MagicPrintsToKeyPart2(m);
    } else if m == 0x6969 || m == 0xef51 || m == 0xef53 || m == 0xf15f {
      MagicPrintsToKeyPart3(m);
    } else if m == 0x794c7630 || m == 0x2fc12fc1 || m == 0xff534d42 || m == 0x53464846 {
      MagicPrintsToKeyPart4(m);
    }
  }

  /** Every text key is the printing of a numeric code naming the same filesystem. */
  lemma KeyIsPrintedMagic(hex: string)
    requires hex in FsTypeNames
    ensures exists m :: m in KnownMagic && Strconv.FormatInt(m, 16) == hex && FsTypeNames[hex] == KnownMagic[m]
  {
    if hex == "1021994" {
      var m :| m == 0x1021994;
      EntryTmpfs(m, hex);
    } else if hex == "137d" {
      var m :| m == 0x137d;
      EntryExt(m, hex);
    } else if hex == "4244" {
      var m :| m == 0x4244;
      EntryHfs(m, hex);
    } else if hex == "4d44" {
      var m :| m == 0x4d44;
      EntryMsdos(m, hex);
    } else if hex == "52654973" {
      var m :| m == 0x52654973;
      EntryReiserfs(m, hex);
    } else if hex == "5346544e" {
      var m :| m == 0x5346544e;
      EntryNtfs(m, hex);
    } else if hex == "58465342" {
      var m :| m == 0x58465342;
      EntryXfs(m, hex);
    } else if hex == "61756673" {
      var m :| m == 0x61756673;
      EntryAufs(m, hex);
    } else if hex == "6969" {
      var m :| m == 0x6969;
      EntryNfs(m, hex);
    } else if hex == "ef51" {
      var m :| m == 0xef51;
      EntryExt2old(m, hex);
    } else if hex == "ef53" {
      var m :| m == 0xef53;
      EntryExt4(m, hex);
    } else if hex == "f15f" {
      var m :| m == 0xf15f;
      EntryEcryptfs(m, hex);
    } else if hex == "794c7630" {
      var m :| m == 0x794c7630;
      EntryOverlayfs(m, hex);
    } else if hex == "2fc12fc1" {
      var m :| m == 0x2fc12fc1;
      EntryZfs(m, hex);
    } else if hex == "ff534d42" {
      var m :| m == 0xff534d42;
      EntryCifs(m, hex);
    } else if hex == "53464846" {
      var m :| m == 0x53464846;
      EntryWslfs(m, hex);
    }
  }

  /**
    The lookup is exactly the numeric table: a listed code gets its name and
    every other code, every negative one included, gets "UNKNOWN".
   */
  lemma GetFSTypeIsMagicLookup(ftype: Int64)
    ensures GetFSType(ftype) == if ftype in KnownMagic then KnownMagic[ftype] else Unknown
  {
    var hex := Strconv.FormatInt(ftype, 16);
    if hex in FsTypeNames {
      KeyIsPrintedMagic(hex);
      var m :| m in KnownMagic && Strconv.FormatInt(m, 16) == hex && FsTypeNames[hex] == KnownMagic[m];
      Strconv.FormatIntInjective(m, ftype, 16);
    } else if ftype in KnownMagic {
      MagicPrintsToKey(ftype);
    }
  }

  /** "UNKNOWN" is no name in the table, so it signals a miss unambiguously. */
  lemma UnknownMeansUnlisted(ftype: Int64)
    ensures GetFSType(ftype) == Unknown <==> ftype !in KnownMagic
  {
    GetFSTypeIsMagicLookup(ftype);
  }

  /** No key starts with '-', so no negative code has a name. */
  lemma NegativeCodesAreUnknown(ftype: Int64)
    requires ftype < 0
    ensures GetFSType(ftype) == Unknown
  {
    GetFSTypeIsMagicLookup(ftype);
  }
}

=== FILE: go_types.dfy ===
/**
  The Go vocabulary the exporter is written in: fixed-width integers with
  their wrap-around, nil-able values, the `(value, error)` return pair, the
  errors the core produces or passes on, and the lines it writes to the log.
 */
module GoTypes {
  import Strconv

  const TwoTo64: int := 0x1_0000_0000_0000_0000

  type Uint64 = x: int | 0 <= x < TwoTo64
  type Int64 = x: int | -0x8000_0000_0000_0000 <= x < 0x8000_0000_0000_0000

  /** Go `a - b` on `uint64`: wraps around below zero instead of failing. */
  function Sub64(a: Uint64, b: Uint64): (r: Uint64)
    ensures b <= a ==> r == a - b
    ensures a < b ==> r == a - b + TwoTo64
  {
    (a - b) % TwoTo64
  }

  /** Go `a * b` on `uint64`: keeps the low 64 bits of the product. */
  function Mul64(a: Uint64, b: Uint64): (r: Uint64)
    ensures a * b < TwoTo64 ==> r == a * b
    ensures (r - a * b) % TwoTo64 == 0
  {
    // the congruence is proved about the product as one opaque number, so
    // the solver never reasons about the multiplication itself
    LowBitsCongruent(a * b);
    (a * b) % TwoTo64
  }

  /** Keeping the low 64 bits of a number changes it by a multiple of 2^64. */
  lemma LowBitsCongruent(p: nat)
    ensures (p % TwoTo64 - p) % TwoTo64 == 0
  {
  }

  /** A Go pointer or interface value: nil, or something. */
  datatype Option<+T> = None | Some(value: T)

  /**
    The errors of this core. `Failure` is an error handed up unchanged from
    code outside it (the operating system, the Docker client, gopsutil),
    known only by its text; the other two are constructed by the core.
   */
  datatype Error =
    | Failure(text: string)
    | FsCorruption(free: Uint64, total: Uint64, path: string)
    | NodeIdNotFound

  /** The outcome of a call into code outside the core: a value or an error. */
  datatype Result<+T> = Ok(value: T) | Err(error: Error)

  /** A Go `(T, error)` pair: the value is returned even alongside an error. */
  datatype Ret<+T> = Ret(value: T, err: Option<Error>)

  /** A record the core passes through without looking inside it. */
  datatype Opaque = Opaque(json: string)

  /** `part` occurs somewhere in `s`. */
  predicate Contains(s: string, part: string)
  {
    exists i :: 0 <= i <= |s| && part <= s[i..]
  }

  /** Whatever surrounds `part`, the result contains it. */
  lemma InfixContains(before: string, part: string, after: string)
    ensures Contains(before + part + after, part)
  {
    var s := before + part + after;
    assert s[|before|..] == part + after;
  }

  /** Each of the three values spliced into a message template occurs in it. */
  lemma SplicedValuesOccur(t0: string, x: string, t1: string, y: string, t2: string, z: string, t3: string)
    ensures var s := t0 + x + t1 + y + t2 + z + t3;
      Contains(s, x) && Contains(s, y) && Contains(s, z)
  {
    var s := t0 + x + t1 + y + t2 + z + t3;
    InfixContains(t0, x, t1 + y + t2 + z + t3);
    assert s == t0 + x + (t1 + y + t2 + z + t3);
    InfixContains(t0 + x + t1, y, t2 + z + t3);
    assert s == (t0 + x + t1) + y + (t2 + z + t3);
    InfixContains(t0 + x + t1 + y + t2, z, t3);
  }

  /**
    `err.Error()`: the text of an error. The corruption error of
    `GetPathDiskInfo` names both figures, in decimal, and the path.
   */
  function Message(e: Error): (m: string)
    ensures e.Failure? ==> m == e.text
    ensures e.NodeIdNotFound? ==> m == "node ID not found in /info"
    ensures e.FsCorruption? ==>
      && Contains(m, Strconv.FormatInt(e.free, 10))
      && Contains(m, Strconv.FormatInt(e.total, 10))
      && Contains(m, e.path)
  {
    match e
    case Failure(text) => text
    case FsCorruption(free, total, path) =>
      var freeText, totalText := Strconv.FormatInt(free, 10), Strconv.FormatInt(total, 10);
      SplicedValuesOccur("detected free space (", freeText, ") > total disk space (", totalText,
        "), fs corruption at (", path, "). please run 'fsck'");
      "detected free space (" + freeText + ") > total disk space (" + totalText
      + "), fs corruption at (" + path + "). please run 'fsck'"
    case NodeIdNotFound => "node ID not found in /info"
  }

  /** A line written through the logging collaborator. */
  datatype LogEntry = LogError(message: string)

  /** The one log line the core writes for a failure it absorbs. */
  function ErrorLog(e: Error): LogEntry
  {
    LogError(Message(e))
  }
}

=== FILE: snapshot.dfy ===
/**
  `GetCurrentInfo` in core/systemFunctions.go: one metrics snapshot built
  from the Docker side and the host collectors. Every collaborator's outcome
  is an input, so the snapshot is a pure function of them; the steps taken
  and the error lines written are part of the result.
 */
module Snapshot {
  import opened GoTypes
  import opened Swarm
  import opened DiskUsage
  import opened DockerFunctions
  import opened Collectors

  /** The outcomes of the gopsutil calls behind the host collectors. */
  datatype HostCollaborators = HostCollaborators(
    cpuInfo: Result<seq<Opaque>>,              // cpu.Info()
    cpuPercent: Result<seq<Opaque>>,           // cpu.Percent(time.Second, false)
    loadAvg: Result<Opaque>,                   // load.Avg()
    virtualMemory: Result<Opaque>,             // mem.VirtualMemory()
    partitions: Result<seq<Partition>>,        // disk.Partitions(true)
    usage: string -> Ret<Option<Opaque>>,      // disk.Usage(mountpoint), one answer per mount point
    ioCounters: Result<map<string, Opaque>>,   // disk.IOCounters()
    hostInfo: Ret<Option<Opaque>>)             // host.Info()

  /**
    Everything one snapshot depends on. Each of the three Docker functions
    builds its own client, so each gets its own view of the daemon.
   */
  datatype Collaborators = Collaborators(
    rootLookup: DockerApi,                  // the client of GetDockerRootInfo
    statfs: string -> Result<Statfs>,       // syscall.Statfs(path)
    managerProbe: DockerApi,                // the client of isANodeManager
    nodeListing: DockerApi,                 // the client of GetNodeList
    host: HostCollaborators)

  datatype CpuMetrics = CpuMetrics(
    cpuInfoStats: seq<Opaque>,
    cpuPercentageUtilization: seq<Opaque>,
    cpuLoadAverageStat: Option<Opaque>)

  datatype DiskMetrics = DiskMetrics(diskInfo: seq<DiskInfoEntry>, diskIO: map<string, Opaque>)

  datatype SystemMetrics = SystemMetrics(
    cpuMetrics: CpuMetrics,
    memoryInfoStats: Option<Opaque>,
    diskMetrics: DiskMetrics,
    hostInfo: Option<Opaque>,
    netInfo: seq<Opaque>)

  datatype DockerMetrics = DockerMetrics(
    rootDiskInfo: DockerRootInfo,
    status: bool,
    isManager: bool,
    managerStatus: Option<ManagerStatus>,
    nodeList: seq<Node>)

  datatype Metrics = Metrics(dockerMetrics: DockerMetrics, systemMetrics: SystemMetrics)

  /** The operations a snapshot performs, in the order it performs them. */
  datatype Step =
    | LookupDockerRoot
    | StatDockerRoot(path: string)
    | ProbeManager
    | ListNodes(hideTlsAndEngine: bool)
    | CollectCpuInfo
    | CollectCpuPercentage
    | CollectCpuLoad
    | CollectMemInfo
    | CollectDiskInfo
    | CollectDiskIO
    | CollectHostInfo

  /** The host collectors, run unconditionally in this order. */
  const HostSteps: seq<Step> :=
    [CollectCpuInfo, CollectCpuPercentage, CollectCpuLoad, CollectMemInfo,
     CollectDiskInfo, CollectDiskIO, CollectHostInfo]

  /** A part of the snapshot with the steps taken and the lines logged to build it. */
  datatype Section<+T> = Section(value: T, steps: seq<Step>, logs: seq<LogEntry>)

  type Report = Section<Metrics>

  /** One error line for a reported error, none otherwise. */
  function LogIfFailed(err: Option<Error>): (r: seq<LogEntry>)
    ensures r == [] <==> err.None?
    ensures err.Some? ==> r == [ErrorLog(err.value)]
  {
    match err
    case None => []
    case Some(e) => [ErrorLog(e)]
  }

  /** The node-list part: fetched, redacted, only for a manager. */
  function ListIfManager(isManager: bool, nodeListing: DockerApi): (r: Section<seq<Node>>)
    ensures !isManager ==> r == Section([], [], [])
    ensures isManager ==> r.steps == [ListNodes(true)]
    ensures isManager ==>
      var listed := GetNodeList(nodeListing, true).out;
      r.value == listed.value && r.logs == LogIfFailed(listed.err)
    ensures forall i :: 0 <= i < |r.value| ==> Redacted(r.value[i])
  {
    if isManager then
      var listed := GetNodeList(nodeListing, true).out;
      Section(listed.value, [ListNodes(true)], LogIfFailed(listed.err))
    else
      Section([], [], [])
  }

  /**
    The Docker half of `GetCurrentInfo`. A failed root lookup leaves the
    defaults and skips everything else; otherwise the root's disk usage is
    read (keeping the path on error), the manager probe runs, and the node
    list, with certificates and engine details cleared, is fetched only for
    a manager. Each error met is logged.
   */
  function CollectDockerMetrics(c: Collaborators): (r: Section<DockerMetrics>)
    ensures |r.steps| > 0 && r.steps[0] == LookupDockerRoot
    ensures var root := GetDockerRootInfo(c.rootLookup).out;
      r.value.status <==> root.err.None?
    ensures var root := GetDockerRootInfo(c.rootLookup).out;
      root.err.Some? ==>
        && r.value == DockerMetrics(ZeroRootInfo, false, false, None, [])
        && r.steps == [LookupDockerRoot]
        && r.logs == [ErrorLog(root.err.value)]
    ensures var root := GetDockerRootInfo(c.rootLookup).out;
      root.err.None? ==>
        r.steps == [LookupDockerRoot, StatDockerRoot(root.value), ProbeManager]
          + (if IsANodeManager(c.managerProbe).out.isManager then [ListNodes(true)] else [])
    // the root's disk usage: kept even on error, with the path filled in
    ensures var root := GetDockerRootInfo(c.rootLookup).out;
      root.err.None? ==>
        var disk := GetPathDiskInfo(root.value, c.statfs(root.value));
        && r.value.rootDiskInfo == disk.value.(path := root.value)
        && (disk.err.Some? ==> ErrorLog(disk.err.value) in r.logs)
    // the manager probe
    ensures var root := GetDockerRootInfo(c.rootLookup).out;
      var probe := IsANodeManager(c.managerProbe).out;
      && (r.value.isManager <==> root.err.None? && probe.isManager)
      && (root.err.None? ==> r.value.managerStatus == probe.managerStatus)
      && (root.err.None? && probe.err.Some? ==> ErrorLog(probe.err.value) in r.logs)
    // the node list: gated on the probe, redacted
    ensures ListNodes(true) in r.steps <==> r.value.isManager
    ensures ListNodes(false) !in r.steps
    ensures !r.value.isManager ==> r.value.managerStatus == None && r.value.nodeList == []
    ensures r.value.isManager ==>
      var listed := GetNodeList(c.nodeListing, true).out;
      && r.value.nodeList == listed.value
      && (listed.err.Some? ==> ErrorLog(listed.err.value) in r.logs)
    ensures forall i :: 0 <= i < |r.value.nodeList| ==> Redacted(r.value.nodeList[i])
    // one line per failed step, in the order of the steps
    ensures var root := GetDockerRootInfo(c.rootLookup).out;
      root.err.None? ==>
        var disk := GetPathDiskInfo(root.value, c.statfs(root.value));
        var probe := IsANodeManager(c.managerProbe).out;
        var listed := GetNodeList(c.nodeListing, true).out;
        r.logs == LogIfFailed(disk.err) + LogIfFailed(probe.err)
          + (if probe.isManager then LogIfFailed(listed.err) else [])
    // nothing is logged exactly when every step taken succeeded
    ensures var root := GetDockerRootInfo(c.rootLookup).out;
      r.logs == [] <==>
        && root.err.None?
        && GetPathDiskInfo(root.value, c.statfs(root.value)).err.None?
        && IsANodeManager(c.managerProbe).out.isManager
        && GetNodeList(c.nodeListing, true).out.err.None?
  {
    var root := GetDockerRootInfo(c.rootLookup).out;
    match root.err
    case Some(e) =>
      Section(DockerMetrics(ZeroRootInfo, false, false, None, []), [LookupDockerRoot], [ErrorLog(e)])
    case None =>
      var path := root.value;
      var disk := GetPathDiskInfo(path, c.statfs(path));
      var rootDiskInfo := if disk.err.Some? then disk.value.(path := path) else disk.value;
      var probe := IsANodeManager(c.managerProbe).out;
      var nodes := ListIfManager(probe.isManager, c.nodeListing);
      Section(
        DockerMetrics(rootDiskInfo, true, probe.isManager, probe.managerStatus, nodes.value),
        [LookupDockerRoot, StatDockerRoot(path), ProbeManager] + nodes.steps,
        LogIfFailed(disk.err) + LogIfFailed(probe.err) + nodes.logs)
  }

  /** Every host collector succeeded (per-partition usage and host info do not count: they are never reported). */
  predicate HostHealthy(h: HostCollaborators)
  {
    && h.cpuInfo.Ok? && h.cpuPercent.Ok? && h.loadAvg.Ok? && h.virtualMemory.Ok?
    && h.partitions.Ok? && h.ioCounters.Ok?
  }

  /**
    The host half of `GetCurrentInfo`: the seven collectors, each falling
    back to its empty value. `GetNetInfo` is not among them, so the network
    counters stay empty.
   */
  function CollectSystemMetrics(h: HostCollaborators): (r: Section<SystemMetrics>)
    ensures r.steps == HostSteps
    ensures Degraded(h.cpuInfo, [], r.value.cpuMetrics.cpuInfoStats, r.logs)
    ensures Degraded(h.cpuPercent, [], r.value.cpuMetrics.cpuPercentageUtilization, r.logs)
    ensures Degraded(AsPointer(h.loadAvg), None, r.value.cpuMetrics.cpuLoadAverageStat, r.logs)
    ensures Degraded(AsPointer(h.virtualMemory), None, r.value.memoryInfoStats, r.logs)
    ensures Degraded(h.ioCounters, map[], r.value.diskMetrics.diskIO, r.logs)
    ensures h.partitions.Err? ==>
      r.value.diskMetrics.diskInfo == [] && ErrorLog(h.partitions.error) in r.logs
    ensures h.partitions.Ok? ==>
      var parts := h.partitions.value;
      && |r.value.diskMetrics.diskInfo| == |parts|
      && forall i :: 0 <= i < |parts| ==>
           r.value.diskMetrics.diskInfo[i] == DiskInfoEntry(parts[i], h.usage(parts[i].mountpoint).value)
    ensures r.value.hostInfo == h.hostInfo.value
    ensures r.value.netInfo == []
    ensures |r.logs| <= 6
    ensures r.logs == FailureLog(h.cpuInfo) + FailureLog(h.cpuPercent) + FailureLog(h.loadAvg)
      + FailureLog(h.virtualMemory) + FailureLog(h.partitions) + FailureLog(h.ioCounters)
    ensures r.logs == [] <==> HostHealthy(h)
  {
    var cpuInfo := GetCPUInfo(h.cpuInfo);
    var cpuPercent := GetCPUPercentageUtilization(h.cpuPercent);
    var cpuLoad := GetCpuLoad(h.loadAvg);
    var memInfo := GetMemInfo(h.virtualMemory);
    var diskInfo := GetDiskInfo(h.partitions, h.usage);
    var diskIO := GetDiskIOCounterStat(h.ioCounters);
    var hostInfo := GetHostInfo(h.hostInfo);
    Section(
      SystemMetrics(
        CpuMetrics(cpuInfo.value, cpuPercent.value, cpuLoad.value),
        memInfo.value,
        DiskMetrics(diskInfo.value, diskIO.value),
        hostInfo.value,
        []),
      HostSteps,
      cpuInfo.logs + cpuPercent.logs + cpuLoad.logs + memInfo.logs + diskInfo.logs + diskIO.logs + hostInfo.logs)
  }

  /** Nothing on the Docker side went wrong (the node list is only asked for on a manager). */
  predicate DockerHealthy(c: Collaborators)
  {
    var root := GetDockerRootInfo(c.rootLookup).out;
    && root.err.None?
    && GetPathDiskInfo(root.value, c.statfs(root.value)).err.None?
    && IsANodeManager(c.managerProbe).out.isManager
    && GetNodeList(c.nodeListing, true).out.err.None?
  }

  /**
    `GetCurrentInfo`: the Docker half, then the host collectors, which run
    whatever happened on the Docker side; Docker errors are logged first.
   */
  function GetCurrentInfo(c: Collaborators): (r: Report)
    ensures var docker, system := CollectDockerMetrics(c), CollectSystemMetrics(c.host);
      && r.value == Metrics(docker.value, system.value)
      && r.steps == docker.steps + HostSteps
      && r.logs == docker.logs + system.logs
    ensures r.steps[0] == LookupDockerRoot
    ensures |r.steps| > |HostSteps| && r.steps[|r.steps| - |HostSteps|..] == HostSteps
    ensures r.value.systemMetrics.netInfo == []
    ensures r.logs == [] <==> DockerHealthy(c) && HostHealthy(c.host)
  {
    var docker := CollectDockerMetrics(c);
    var system := CollectSystemMetrics(c.host);
    Section(Metrics(docker.value, system.value), docker.steps + system.steps, docker.logs + system.logs)
  }

  /**
    The host metrics do not depend on the Docker daemon at all: a snapshot
    taken with the daemon down reports the same host figures as one with it up.
   */
  lemma HostMetricsIgnoreDocker(c: Collaborators, d: Collaborators)
    requires c.host == d.host
    ensures GetCurrentInfo(c).value.systemMetrics == GetCurrentInfo(d).value.systemMetrics
  {
  }

  /**
    With the daemon unreachable the snapshot reports Docker as down, runs no
    other Docker step, and logs that one error ahead of any host error.
   */
  lemma DockerDownSnapshot(c: Collaborators)
    requires GetDockerRootInfo(c.rootLookup).out.err.Some?
    ensures var r := GetCurrentInfo(c);
      && r.value.dockerMetrics == DockerMetrics(ZeroRootInfo, false, false, None, [])
      && r.steps == [LookupDockerRoot] + HostSteps
      && r.logs[0] == ErrorLog(GetDockerRootInfo(c.rootLookup).out.err.value)
  {
  }

  /** The Docker half of a worker's snapshot: no manager status, no list, no listing step. */
  lemma WorkerDockerHalf(c: Collaborators)
    requires !IsANodeManager(c.managerProbe).out.isManager
    ensures var d := CollectDockerMetrics(c);
      && !d.value.isManager
      && d.value.nodeList == []
      && d.value.managerStatus == None
      && forall h :: ListNodes(h) !in d.steps
  {
  }

  /**
    A node that cannot inspect itself (a worker) never lists the swarm's
    nodes, whatever the node-listing client would answer.
   */
  lemma WorkerSkipsNodeList(c: Collaborators)
    requires !IsANodeManager(c.managerProbe).out.isManager
    ensures var r := GetCurrentInfo(c);
      && !r.value.dockerMetrics.isManager
      && r.value.dockerMetrics.nodeList == []
      && r.value.dockerMetrics.managerStatus == None
      && forall h :: ListNodes(h) !in r.steps
  {
    // without these two steps the solver unfolds all of GetCurrentInfo at once
    // and runs out of resources
    WorkerDockerHalf(c);
    NoListingBeforeHostSteps(CollectDockerMetrics(c).steps);
  }

  /** The host collectors add no node listing to the steps before them. */
  lemma NoListingBeforeHostSteps(steps: seq<Step>)
    requires forall h :: ListNodes(h) !in steps
    ensures forall h :: ListNodes(h) !in steps + HostSteps
  {
  }
}

=== FILE: strconv.dfy ===
/**
  Integer-to-text conversion as done by Go's `strconv.FormatInt` and `fmt`'s
  `%d` verb: digits '0'..'9' then 'a'..'z', most significant digit first, no
  leading zeros, no padding, and a '-' in front of negative values.

  `ValueOfInt` is the independent reading of such text back into a number;
  the round-trip lemmas below make `FormatInt` injective, which is what the
  filesystem-type lookup relies on.
 */
module Strconv {

  /** The bases `strconv.FormatInt` accepts (it panics outside this range). */
  type Base = b: int | 2 <= b <= 36 witness 10

  /** The character Go prints for digit value `d`. */
  function Digit(d: nat): (c: char)
    requires d < 36
    ensures DigitValue(c) == d
  {
    if d < 10 then ('0' as int + d) as char else ('a' as int + d - 10) as char
  }

  /** The value of a digit character, or -1 for a character that is no digit. */
  function DigitValue(c: char): int
  {
    if '0' <= c <= '9' then c as int - '0' as int
    else if 'a' <= c <= 'z' then c as int - 'a' as int + 10
    else -1
  }

  /** Euclidean division by a base shortens a number of two or more digits. */
  lemma DivideByBase(n: nat, base: Base)
    requires n >= base
    ensures 1 <= n / base < n
    ensures 0 <= n % base < base
    ensures (n / base) * base + n % base == n
  {
  }

  /** Unsigned formatting: `strconv.FormatUint(n, base)`. */
  function FormatUint(n: nat, base: Base): (s: string)
    ensures |s| > 0
    ensures forall i :: 0 <= i < |s| ==> 0 <= DigitValue(s[i]) < base
    ensures s[0] == '0' <==> n == 0
    ensures n == 0 ==> s == "0"
    decreases n
  {
    if n < base then [Digit(n)]
    else
      DivideByBase(n, base);
      FormatUint(n / base, base) + [Digit(n % base)]
  }

  /** Signed formatting: `strconv.FormatInt(x, base)`. */
  function FormatInt(x: int, base: Base): (s: string)
    ensures |s| > 0
    ensures s[0] == '-' <==> x < 0
  {
    if x < 0 then "-" + FormatUint(-x, base) else FormatUint(x, base)
  }

  /** Reads a string of digits in `base`, most significant first. */
  function ValueOfUint(s: string, base: Base): int
    decreases |s|
  {
    if |s| == 0 then 0
    else ValueOfUint(s[..|s| - 1], base) * base + DigitValue(s[|s| - 1])
  }

  /** Reads an optionally '-'-prefixed string of digits in `base`. */
  function ValueOfInt(s: string, base: Base): int
  {
    if |s| > 0 && s[0] == '-' then -ValueOfUint(s[1..], base) else ValueOfUint(s, base)
  }

  lemma {:induction false} FormatUintRoundTrip(n: nat, base: Base)
    ensures ValueOfUint(FormatUint(n, base), base) == n
    decreases n
  {
    var s := FormatUint(n, base);
    if n < base {
      assert s[..0] == [];
    } else {
      DivideByBase(n, base);
      var prefix := FormatUint(n / base, base);
      assert s[..|s| - 1] == prefix;
      FormatUintRoundTrip(n / base, base);
    }
  }

  lemma FormatIntRoundTrip(x: int, base: Base)
    ensures ValueOfInt(FormatInt(x, base), base) == x
  {
    if x < 0 {
      var s := FormatInt(x, base);
      assert s[1..] == FormatUint(-x, base);
      FormatUintRoundTrip(-x, base);
    } else {
      FormatUintRoundTrip(x, base);
    }
  }

  /** Distinct numbers never print the same. */
  lemma FormatIntInjective(x: int, y: int, base: Base)
    requires FormatInt(x, base) == FormatInt(y, base)
    ensures x == y
  {
    FormatIntRoundTrip(x, base);
    FormatIntRoundTrip(y, base);
  }
}

=== FILE: swarm.dfy ===
/**
  The parts of the Docker Engine API records the exporter touches: the
  `/info` answer and swarm nodes. Fields the exporter never inspects are
  carried as `Opaque` values; only the two it clears on redaction, the TLS
  information and the engine description, are spelled out.
 */
module Swarm {
  import opened GoTypes

  /** `swarm.TLSInfo`: the trust root and the issuer's certificate details. */
  datatype TLSInfo = TLSInfo(trustRoot: string, certIssuerSubject: seq<bv8>, certIssuerPublicKey: seq<bv8>)

  datatype PluginDescription = PluginDescription(kind: string, name: string)

  /** `swarm.EngineDescription`: engine version, labels and plugins. */
  datatype EngineDescription = EngineDescription(
    engineVersion: string,
    labels: map<string, string>,
    plugins: seq<PluginDescription>)

  datatype NodeDescription = NodeDescription(
    hostname: string,
    platform: Opaque,
    resources: Opaque,
    engine: EngineDescription,
    tlsInfo: TLSInfo)

  /** `swarm.ManagerStatus`: present on manager nodes only. */
  datatype ManagerStatus = ManagerStatus(leader: bool, reachability: string, addr: string)

  datatype Node = Node(
    id: string,
    meta: Opaque,
    spec: Opaque,
    description: NodeDescription,
    status: Opaque,
    managerStatus: Option<ManagerStatus>)

  /** The fields of a `/info` answer the exporter reads. */
  datatype Info = Info(dockerRootDir: string, swarmNodeId: string, rest: Opaque)

  const ZeroTLSInfo := TLSInfo("", [], [])
  const ZeroEngine := EngineDescription("", map[], [])
  const ZeroOpaque := Opaque("")

  /** The Go zero value `swarm.Node{}`. */
  const ZeroNode := Node("", ZeroOpaque, ZeroOpaque,
    NodeDescription("", ZeroOpaque, ZeroOpaque, ZeroEngine, ZeroTLSInfo), ZeroOpaque, None)

  /** The node shows neither certificates nor engine internals. */
  predicate Redacted(n: Node)
  {
    n.description.tlsInfo == ZeroTLSInfo && n.description.engine == ZeroEngine
  }

  /** `a` and `b` agree on every field except the TLS information and the engine description. */
  predicate SameOutsideSecrets(a: Node, b: Node)
  {
    && a.id == b.id
    && a.meta == b.meta
    && a.spec == b.spec
    && a.status == b.status
    && a.managerStatus == b.managerStatus
    && a.description.hostname == b.description.hostname
    && a.description.platform == b.description.platform
    && a.description.resources == b.description.resources
  }

  /** One iteration of the redaction loop in `GetNodeList`. */
  function Redact(n: Node): (r: Node)
    ensures Redacted(r) && SameOutsideSecrets(n, r)
  {
    n.(description := n.description.(tlsInfo := ZeroTLSInfo, engine := ZeroEngine))
  }

  /** Redaction is determined by its two promises: there is one such node. */
  lemma RedactIsUnique(n: Node, m: Node)
    requires Redacted(m) && SameOutsideSecrets(n, m)
    ensures m == Redact(n)
  {
  }

  /** The redaction loop over a whole node list. */
  function RedactAll(nodes: seq<Node>): (r: seq<Node>)
    ensures |r| == |nodes|
    ensures forall i :: 0 <= i < |r| ==> Redacted(r[i]) && SameOutsideSecrets(nodes[i], r[i])
  {
    if |nodes| == 0 then []
    else [Redact(nodes[0])] + RedactAll(nodes[1..])
  }

  /** Redacting an already redacted list changes nothing. */
  lemma RedactAllIdempotent(nodes: seq<Node>)
    ensures RedactAll(RedactAll(nodes)) == RedactAll(nodes)
  {
  }
}
